=== FILE: README.md ===
# Translation relay: a Dafny model of its decision logic

The system is a small translation page and the relay behind it. The page
(`app.js`) sends the input text once per language card (Japanese, English,
Spanish, Portuguese) to `POST /api/translate`. It shows each card's result or
a categorised error text. The relay (`server.js`) validates the request,
checks that an API key is configured, builds a prompt, and calls a
generative-language API. It then reshapes that API's answer into
`{translatedText, detectedSourceLanguage, requestId}` or an error reply.

This project models the decisions both halves make, as pure functions over
immutable datatypes. The network, the DOM, timers and the environment become
parameters:

- `fetch` on the page becomes a `Client.FetchOutcome`: either a rejection with
  a message, or a status, a status text and what reading the body as JSON gave.
- The upstream call on the relay becomes a `Server.Upstream`: a connection
  failure, a failure while the body is read, or a status, the raw body and
  what parsing it gave.
- The API key becomes a boolean saying whether it is set. The request id is an
  opaque string.
- Timers become a one-slot state, `Idle` or `Pending(500)`, plus a
  `TimerFired` event.

Strings are sequences of code points. All the character classes of the
language heuristic lie in the Basic Multilingual Plane, so testing them on
code points gives the same answer as the page's regular expressions, which
test UTF-16 code units.

Modules, one per file:

- `optional.dfy`, module `Optional`: a present-or-missing value.
- `http.dfy`, module `Http`: `response.ok`, meaning a 2xx status.
- `js_string.dfy`, module `JsString`: the ECMAScript string operations the code
  relies on. These are `trim` (over the WhiteSpace and LineTerminator sets of
  sections 12.2 and 12.3 of ECMAScript 2023), `includes`, `substring(0, n)`
  and the decimal rendering of a status, plus the truthiness of a string member.
- `language.dfy`, module `Language`: `detectLanguage`.
- `client.dfy`, module `Client`: `translateText` and `performTranslation`.
- `page.dfy`, module `Page`: the debounced `input` listener, the translate
  button and the copy-button guard.
- `server.dfy`, module `Server`: the CORS origin check and the
  `/api/translate` handler.
- `relay.dfy`, module `Relay`: a relay reply as the page reads it, and what a
  card shows for each kind of reply.

Notable behaviour the proofs make explicit:

- Every error reply of the relay carries a truthy `error` text, and none of
  these texts contains `500`, `405` or `Failed to fetch`. The page therefore
  shows every relay error as the generic failure text, a missing API key
  (status 500) included. The page's "server error" text appears only when the
  body of a non-ok reply has no usable `error` member
  (`Relay.CardShowsRelayReply`, `Client.Status500IsServerFailure`).
- A non-ok reply whose body is not JSON loses its status: it is shown as the
  generic failure (`Client.UnparsableErrorHidesStatus`).
- The relay's fallback returns the request text when the upstream answer has
  no candidate text. It trims that text, so the fallback returns the input
  trimmed rather than unchanged (`Server.SuccessShape`).
- The CORS check accepts any falsy origin. That covers a request without an
  `Origin` header and also an empty header (`Server.OriginPolicy`).
- The prompt spells `auto` as "auto-detected language". An explicit source
  language of that very phrase yields the same prompt (`Server.PromptSource`).
- `detectedSourceLanguage` is `auto-detected` when the source is `auto`, and
  otherwise echoes the source. A source spelled `auto-detected` echoes to the
  same value, so the echo is not an if-and-only-if.

## Model

| member | source | states |
|---|---|---|
| JsString.Trim | app.js:136 | `trim` returns the slice of the input between its leading and trailing whitespace: everything cut off is whitespace, and a non-empty result starts and ends with a non-whitespace character |
| JsString.BlankIffAllWhitespace | app.js:24 | `!text.trim()` holds exactly when every character of the text is JavaScript whitespace, the ideographic space U+3000 included |
| JsString.TrimIdempotent | app.js:136 | trimming the already trimmed input changes nothing, so `translateText`'s own trim leaves `performTranslation`'s text as it is |
| JsString.TightIffTrimmed | server.js:198 | a string is its own trim exactly when it has no whitespace at either end, the form in which the relay sends a translation |
| JsString.Includes | app.js:104-110 | `message.includes(k)` is true exactly when `k` occurs at some index of the message |
| JsString.MissingLeadChar | app.js:104-110 | a message that lacks the first character of a keyword does not include that keyword |
| JsString.Prefix | server.js:155 | `substring(0, 500)` is a prefix of the raw body, at most 500 long, and equal to the whole body when the body is not longer than that |
| JsString.NatToString | app.js:74 | a status is rendered as decimal digits without a leading zero |
| JsString.DecimalRoundTrip | app.js:74 | reading the rendered status digits back gives the status |
| Language.Occurs | app.js:125-128 | `regex.test(text)` for a character class is true exactly when some character of the text is in the class |
| Language.CharClass.Matches | app.js:120-123 | of the four character classes only the Latin-letter class holds ASCII characters; the kana, Spanish and Portuguese classes hold none |
| Language.DetectLanguage | app.js:117-132 | the result is `ja` exactly when a kana or half-width katakana character occurs; `es` exactly when none does and a Spanish-set character does; `pt` exactly when neither does and a Portuguese-set character does; `en` otherwise |
| Language.DetectedCodeIsCardLanguage | app.js:125-131 | the detected code is always one of `ja`, `en`, `es`, `pt`, and never `auto` |
| Language.JapaneseDominates | app.js:120-125 | one character in U+3040-309F, U+30A0-30FF or U+FF65-FF9F makes the result `ja`, whatever else the text holds |
| Language.LatinTestIsIrrelevant | app.js:128-131 | a text without Japanese, Spanish or Portuguese characters is detected as `en`, whether or not ASCII letters occur |
| Language.PortugueseNeedsItsOwnLetter | app.js:122-127 | the result is `pt` exactly when one of â ê ô ã õ ç (either case) occurs and no Spanish-set or Japanese character does |
| Language.KanaExample | app.js:125 | `こんにちは` is detected as `ja` |
| Language.AsciiExample | app.js:128-131 | `Hello` is detected as `en` |
| Language.SpanishExample | app.js:126 | `año` is detected as `es` |
| Language.PortugueseExample | app.js:127 | `ação` is detected as `pt` |
| Client.NonOkMessage | app.js:61-75 | a non-ok response throws the body's `error` when it is truthy. Otherwise it throws `HTTPエラー: <status> <statusText>`, with an empty body read as `{}`. A non-JSON body throws `無効なJSONレスポンス` |
| Client.HttpError | app.js:74 | the fallback message opens with `HTTPエラー: `, follows it with the status digits, which read back as the status, then a space, and ends with the status text |
| Client.NullBodyIsGeneric | app.js:61-91 | a body that is the JSON `null` makes reading `error` or `translatedText` throw a `TypeError` whose message names no category, so the card shows the generic failure, whatever the status |
| Client.Exchange | app.js:43-93 | the request resolves to a non-empty string exactly when the response is ok and its body is empty or a JSON object. A rejected `fetch` throws its own message, and a non-ok answer throws the body's `error` or the status line |
| Client.FriendlyMessage | app.js:102-112 | the shown category is decided by the first match, in the order `Failed to fetch`, `500`, `405`. Each category holds exactly when its keyword occurs and no earlier keyword does |
| Client.GenericIffKeywordFree | app.js:103-110 | the generic failure text is chosen exactly when the message contains none of the three keywords |
| Client.Fetches | app.js:24-31 | a request is sent only for a text holding a non-whitespace character, and only when the source is `auto` or differs from the target |
| Client.TranslateText | app.js:23-31 | blank text gives `''`. A source other than `auto` that equals the target gives the text unchanged |
| Client.NoFetchNoDependence | app.js:24-31 | when no request is sent, the network's answer cannot affect the result |
| Client.EmptyOnlyForBlankText | app.js:23-113 | a card is left empty exactly when the text is blank. Every other path yields a non-empty string |
| Client.FailuresAreCategorised | app.js:94-113 | every failure is shown as `エラー: ` followed by the friendly message of the error thrown, which is one of the four category texts |
| Client.TransportFailureShown | app.js:43-105 | a rejected request is shown through the rejection's own message, as the connection text when that message mentions `Failed to fetch` |
| Client.OkAnswerShown | app.js:78-93 | an ok JSON answer shows its `translatedText` verbatim when truthy, and otherwise `翻訳結果が空です`. An ok empty body shows the same placeholder |
| Client.OkButUnparsableIsGeneric | app.js:79-84 | an ok answer that is not JSON ends in the generic failure text |
| Client.ServerMessageWins | app.js:74 | a truthy `error` decides the message whatever the status. One without the three keywords is shown as the generic failure |
| Client.UnparsableErrorHidesStatus | app.js:63-67 | a non-ok answer that is not JSON is shown as the generic failure, whatever its status |
| Client.StatusLine500 | app.js:74 | the status line of a 500 answer contains `500`. It contains `Failed to fetch` only if its status text does |
| Client.StatusLine405 | app.js:74 | the status line of a 405 answer contains `405`. It contains `Failed to fetch` or `500` only if its status text does |
| Client.Status500IsServerFailure | app.js:104-107 | a 500 answer without a usable `error`, whose status text does not contain `Failed to fetch`, is shown as the server-error text |
| Client.Status405IsRefused | app.js:104-109 | a 405 answer without a usable `error`, whose status text contains neither `Failed to fetch` nor `500`, is shown as the request-refused text |
| Client.EffectiveSource | app.js:143-144 | the source passed to `translateText` is never `auto`. It is the selector's value unless that is `auto`, and then `detectLanguage` of the trimmed text, one of the four card codes |
| Client.CardShows | app.js:147-164 | one card: empty exactly when the input is blank; the settled request (its text, or `エラー: ` and the friendly message) when the card sends one; otherwise the trimmed input |
| Client.PerformTranslation | app.js:135-168 | one result per card: every card is empty exactly when the input is blank, a requesting card shows its settled request, and the card in the effective source language shows the trimmed input |
| Client.BlankInputClearsCards | app.js:136-141 | a blank input clears every card, and no card sends a request |
| Client.FetchUnlessSourceCard | app.js:143-157 | with text present, a card sends a request exactly when its language differs from the effective source language |
| Client.SourceCardShowsInput | app.js:143-160 | the card in the effective source language shows the trimmed input, whatever its request would have answered |
| Client.AutoSkipsDetectedCard | app.js:143-157 | in `auto` mode the card of the detected language sends no request and shows the trimmed input, and every other card shows its settled request |
| Client.CardsAreIndependent | app.js:147-167 | what a card shows depends only on its own request's answer |
| Page.Step | app.js:203-218 | an input event sets the box's value and starts no translation. The timer and the button keep the value |
| Page.ClickTranslatesNow | app.js:203 | the translate button translates the value in the box at once and leaves a pending timer as it is |
| Page.ClickThenTimerTranslatesTwice | app.js:203-218 | typing a non-blank value, clicking the button and then letting the timer fire translates that value twice, because the button does not cancel the timer |
| Page.TypingCancelsPending | app.js:206-208 | an input event cancels any pending timer: its effect does not depend on the state it arrives in |
| Page.TypingSchedules | app.js:206-218 | a blank value leaves no timer and clears the cards. Any other value leaves exactly one 500 ms timer |
| Page.BurstLeavesOneTimer | app.js:206-218 | after any burst of input events, the box holds the last value, and the timer is pending exactly when that value is not blank. Nothing has been translated |
| Page.BurstThenFire | app.js:206-218 | a burst of input events followed by the timer starts exactly one translation, of the value present when the timer fires, or none if that value is blank |
| Page.RunAppend | app.js:203-218 | running two event sequences one after the other ends in the same state, with the same effects in order, as running their concatenation |
| Page.CanCopy | app.js:227-228 | a card is copied exactly when its text is non-empty and `翻訳中` occurs at no index of it |
| Page.CopyRefusesPlaceholders | app.js:227-228 | copying is refused for an empty card, for the loading placeholder and for the generic failure text, which contains `翻訳中` |
| Page.CopyAcceptsText | app.js:227-228 | a non-empty card text without the character `翻` is copied, a translated word such as `Hola` for one |
| Page.CopyHolaExample | app.js:227-228 | a translated word such as `Hola` is copied |
| Server.IndexOf | server.js:19 | `indexOf` gives -1 exactly when the value is absent, and otherwise the first index holding it |
| Server.OriginAllowed | server.js:18-25 | the origin callback accepts exactly a falsy origin or one that is in the allow-list |
| Server.OriginPolicy | server.js:11-25 | requests without an origin and the three listed origins pass. Any other non-empty origin is refused, a trailing slash or another port included |
| Server.SourceLang | server.js:67 | `sourceLang` defaults to `auto` only when the member is missing |
| Server.SourcePhrase | server.js:92 | a source other than `auto` is named as given. The phrase is "auto-detected language" exactly for `auto` and for that phrase itself |
| Server.Prompt | server.js:92 | the prompt opens with `Translate the following text from ` and ends with the text verbatim |
| Server.PromptEmbedsText | server.js:92 | the prompt ends with the text verbatim, so the text can be read back from it, and two texts never share a prompt |
| Server.PromptSource | server.js:92 | a source other than `auto` is written into the prompt as given. `auto` reads as "auto-detected language" |
| Server.FirstCandidateText | server.js:188 | the optional chain yields the first part's text exactly when the candidates, the first candidate's content, its parts and the first part are all present, and nothing when the candidates are missing or empty |
| Server.Extracted | server.js:188 | the translation is the first candidate's first part text when it is present and non-empty, and the request text otherwise |
| Server.Outbound | server.js:70-106 | the upstream call is made exactly when `text` and `targetLang` are truthy and the key is set |
| Server.RequestPrompt | server.js:67-92 | a valid request with a key sends `Translate the following text from <source> to <targetLang>: <text>`, with `auto` spelled `auto-detected language` and a missing `sourceLang` read as `auto` |
| Server.ErrorDetailsOf | server.js:149-157 | the details are `{}` exactly for an empty body; a JSON body is passed on as it is; a non-JSON body is wrapped with its first 500 characters, the whole body when it is no longer than that |
| Server.Success | server.js:188-201 | the 200 reply carries the request id and the trim of the extracted text, which has no whitespace at either end |
| Server.FromAnswer | server.js:147-201 | once the upstream has answered, the reply is a translation exactly when its status is 2xx, and a translation carries the request id and a text with no whitespace at either end |
| Server.Handle | server.js:47-216 | a translated reply carries the request id and a text with no whitespace at either end. The reply is a translation exactly when its status is 2xx; every other reply has an `error` member (`Relay.RelayErrorTextsKeywordFree`) |
| Server.ValidationFirst | server.js:67-81 | a falsy `text` or `targetLang` gives 400 whatever the key and the upstream. The `received` field reports which members were truthy and the source, which defaults to `auto`. No call is made |
| Server.KeyChecked | server.js:83-89 | a valid request without a key gives 500 with the configuration error, and no call is made |
| Server.NoCallNoDependence | server.js:70-89 | when no call is made, the upstream cannot influence the reply |
| Server.TransportFailure | server.js:105-135 | a failed connection gives 500 with the "could not connect" error and the failure's message |
| Server.BodyReadFailure | server.js:137-138 | a failure while the upstream body is read, such as a reset or the timeout striking then, escapes the inner `try`: 500 with the unexpected-error text and the request id |
| Server.OkNullDocumentUnexpected | server.js:175-188 | an ok upstream body that is the JSON `null` makes reading `data.candidates` throw: 500 with the unexpected-error text and the request id |
| Server.UpstreamStatusForwarded | server.js:148-170 | a non-ok upstream status is sent back unchanged. The details are `{}` for an empty body, the document for JSON, and otherwise a wrapper holding the body's first 500 characters, or the whole body when it is shorter |
| Server.OkButUnparsable | server.js:172-185 | an ok upstream answer that is not JSON gives 500 with the parse-failure error and the parser's message |
| Server.SuccessShape | server.js:187-201 | the reply is 200 with the trimmed candidate text when it is present and non-empty, and otherwise the trimmed request text. The detected source is `auto-detected` for `auto` and otherwise the given source |
| Server.EmptyOkBodyFallsBack | server.js:175-201 | an ok answer with an empty body reads as `{}`: the reply is a 200 translation carrying the request id, the trimmed request text and the same `detectedSourceLanguage` as any other success |
| Server.HolaExample | server.js:188-201 | a first part text of `" Hola "` is answered with `Hola` and `auto-detected` |
| Relay.Delivered | app.js:58-64 | the page sees the relay's status and the status text, and a JSON object whose `error` is the reply's and whose `translatedText` is the translation, missing on an error reply |
| Relay.RelayErrorTextsKeywordFree | server.js:72-211 | every error text of the relay is non-empty and contains none of the keywords the page classifies by |
| Relay.CardShowsReply | app.js:61-112 | any reply that is a translation exactly when its status is 2xx is shown as its translation, as the empty-result text when the translation is empty, or as the generic failure text when it is not a translation |
| Relay.CardShowsRelayReply | server.js:66-215 | for every way the handler can answer, a card shows the relay's trimmed translation, or the empty-result text, or the generic failure text |
| Relay.MissingKeyShowsGeneric | server.js:84-89 | without an API key every requesting card shows the generic failure text, not the server-error text, even though the status is 500 |

## Left out

- Client.BodyReading: only string values are modelled for the `error` and `translatedText` members of a response body. The relay never sends any other kind of value. Other JSON values would be converted by `new Error(...)` or displayed as they are.
- Server.Body: only strings or a missing member are modelled for the request members `text`, `targetLang` and `sourceLang`. A number, boolean or `null` would pass through the truthiness test and the template literal under JavaScript's conversions.
- Server.Handle: it does not model the `TypeError` that a non-string candidate text would raise at `.trim()`, which leads to the unexpected-error reply. It does model `null` documents, which reach the same reply.
- Server.Handle: it does not model the `details` member of the unexpected-error reply. That member is filled only when `NODE_ENV` is `development`, an environment flag.
- JsString.Prefix: it counts code points, while `substring` counts UTF-16 code units. The two differ only for bodies with characters outside the Basic Multilingual Plane.
- Client.NonOkMessage: the `TypeError` text for reading a member of `null` is V8's wording. Other engines word it differently; only V8's wording is shown to contain none of the three keywords (`Client.NullBodyIsGeneric`).
- The `OPTIONS` branch inside the `POST /api/translate` route (server.js:61-64) is left out. The route matches only `POST` requests, so the branch cannot run. Preflight requests are answered by the CORS middleware.
- The per-card `catch` in `performTranslation` (app.js:161-163) is left out. The modelled `translateText` always returns a string, so nothing reaches that `catch`.
- Request ids (server.js:48) are left out: they are built from the clock and a random number. The model takes the id as an opaque parameter.
- Logging, header dumps and timing measurements are left out. They do not affect any reply.
- The generation parameters (temperature, topP, topK) and the 30-second upstream timeout are left out. The first are floating-point constants with no logic. A timeout before the response arrives surfaces as a connection failure (`Server.ConnectFailed`); one while the body is read surfaces as a body failure (`Server.BodyFailed`). Both are modelled, but not the clock that decides between them.
- Express setup, static file serving, `app.listen`, `dotenv` and the `unhandledRejection` hook are left out. They are process plumbing.
- DOM lookups, CSS class toggling and the loading placeholder's life cycle are left out. Only the final text of a card is modelled.
- The clipboard write, the `alert` on failure and the 2-second reset of the copy button are left out. They are browser calls; only the guard that decides whether to copy is modelled.
- Real timers are left out. The debounce is modelled as a one-slot state, and the timer firing is an event.
- The concurrency of the per-card requests is left out. Cards share no state, so each is modelled on its own with its own answer.
- Page.Step: it treats `Translate` and `ClearCards` as instantaneous. In the page, a request still in flight from an earlier `performTranslation` can overwrite a card after a later clear or translation (app.js:147-160, 211-213); that race between runs is not modelled.
- `init` and its demo text (app.js:235-245) are left out. They are page set-up.

=== FILE: client.dfy ===
/**
 The page's translation logic (app.js): one request per card through
 `translateText`, whose every failure is turned into a displayed message,
 and `performTranslation`, which decides the effective source language and
 which cards need the network at all.
 */
module Client {
  import opened Optional
  import opened JsString
  import opened Language
  import opened Http

  /** What reading a response body as JSON yields on the page. */
  datatype BodyReading =
    | EmptyBody                  // the body text is '' and is read as {}
    | NotJson                    // JSON.parse throws
    | NullDocument               // the body is the JSON literal null
    | Document(error: Option<string>, translatedText: Option<string>)
                                 // an object, with its `error` and `translatedText` members

  /** What one `fetch` to the relay produces. */
  datatype FetchOutcome =
    | Rejected(message: string)  // fetch (or reading the body) threw an Error with this message
    | Answered(status: nat, statusText: string, body: BodyReading)

  /** How the `try` block of `translateText` ends. */
  datatype Settled = Resolved(text: string) | Thrown(message: string)

  const EmptyResult := "翻訳結果が空です"
  const InvalidJson := "無効なJSONレスポンス"
  const UnreadableReply := "サーバーからの応答を処理できませんでした"
  const ErrorPrefix := "エラー: "
  const GenericFailure := "翻訳中にエラーが発生しました"
  const ConnectionFailure := "サーバーに接続できません。インターネット接続を確認してください。"
  const ServerFailure := "サーバーエラーが発生しました。しばらくしてからお試しください。"
  const RequestRefused := "リクエストが拒否されました。ページをリロードしてください。"
  /** The placeholder a card shows while its request is in flight. */
  const Loading := "翻訳中..."

  /** The TypeError message of reading member `name` of `null` (V8's wording). */
  function NullAccess(name: string): string {
    NullAccessHead + name + "')"
  }

  const NullAccessHead := "Cannot read " + "properties " + "of null (reading '"

  /** The opening words of the fallback message of a non-ok response. */
  const HttpErrorHead := "HTTPエラー: "

  /** The fallback message of a non-ok response: `HTTPエラー: <status> <statusText>`.
      The status digits follow the opening words and the status text ends it. */
  function HttpError(status: nat, statusText: string): (m: string)
    ensures var digits := NatToString(status);
            && |m| == |HttpErrorHead| + |digits| + 1 + |statusText|
            && m[..|HttpErrorHead|] == HttpErrorHead
            && m[|HttpErrorHead|..|HttpErrorHead| + |digits|] == digits
            && m[|HttpErrorHead| + |digits|] == ' '
            && DecimalValue(m[|HttpErrorHead|..|HttpErrorHead| + |digits|]) == status
            && m[|m| - |statusText|..] == statusText
  {
    var digits := NatToString(status);
    var m := HttpErrorHead + digits + " " + statusText;
    assert m[..|HttpErrorHead|] == HttpErrorHead;
    assert m[|HttpErrorHead|..|HttpErrorHead| + |digits|] == digits;
    assert m[|m| - |statusText|..] == statusText;
    DecimalRoundTrip(status);
    m
  }

  /** The message thrown for a non-ok response: the body's `error` when truthy,
      the status line otherwise. An unparsable body stands for `{error: 無効なJSONレスポンス}`. */
  function NonOkMessage(status: nat, statusText: string, body: BodyReading): (m: string)
    ensures body.Document? && Truthy(body.error) ==> m == body.error.value
    ensures body.NotJson? ==> m == InvalidJson
    ensures body.EmptyBody? || (body.Document? && !Truthy(body.error)) ==> m == HttpError(status, statusText)
  {
    match body
    case EmptyBody => HttpError(status, statusText)
    case NotJson => InvalidJson
    case NullDocument => NullAccess("error")
    case Document(error, _) => if Truthy(error) then error.value else HttpError(status, statusText)
  }

  /** The `try` block of `translateText` once the request has been sent. */
  function Exchange(o: FetchOutcome): (s: Settled)
    ensures s.Resolved? ==> s.text != ""
    ensures s.Resolved? <==> o.Answered? && IsOk(o.status) && (o.body.EmptyBody? || o.body.Document?)
    ensures o.Rejected? ==> s == Thrown(o.message)
    ensures o.Answered? && !IsOk(o.status) ==> s == Thrown(NonOkMessage(o.status, o.statusText, o.body))
  {
    match o
    case Rejected(message) => Thrown(message)
    case Answered(status, statusText, body) =>
      if !IsOk(status) then Thrown(NonOkMessage(status, statusText, body))
      else
        match body
        case EmptyBody => Resolved(EmptyResult)
        case NotJson => Thrown(UnreadableReply)
        case NullDocument => Thrown(NullAccess("translatedText"))
        case Document(_, translated) =>
          if Truthy(translated) then Resolved(translated.value) else Resolved(EmptyResult)
  }

  /** The user-facing text for a caught error: the first keyword the message
      contains decides, in the order connection, 500, 405. */
  function FriendlyMessage(message: string): (r: string)
    ensures r == ConnectionFailure <==> Includes(message, "Failed to fetch")
    ensures r == ServerFailure <==> !Includes(message, "Failed to fetch") && Includes(message, "500")
    ensures r == RequestRefused <==>
              !Includes(message, "Failed to fetch") && !Includes(message, "500") && Includes(message, "405")
    ensures r == GenericFailure <==>
              !Includes(message, "Failed to fetch") && !Includes(message, "500") && !Includes(message, "405")
  {
    if Includes(message, "Failed to fetch") then ConnectionFailure
    else if Includes(message, "500") then ServerFailure
    else if Includes(message, "405") then RequestRefused
    else GenericFailure
  }

  /** `translateText` sends a request: the text is not blank and the pair is
      not a no-op. Such a text holds a non-whitespace character. */
  predicate Fetches(text: string, targetLang: string, sourceLang: string)
    ensures Fetches(text, targetLang, sourceLang) ==>
              (exists i :: 0 <= i < |text| && !IsWhitespace(text[i]))
              && (sourceLang == "auto" || targetLang != sourceLang)
  {
    BlankIffAllWhitespace(text);
    !IsBlank(text) && !(sourceLang != "auto" && targetLang == sourceLang)
  }

  /** What a card shows once `translateText`'s request has settled: the
      resolved text, or the friendly message for the error thrown. */
  function Displayed(s: Settled): string {
    match s
    case Resolved(t) => t
    case Thrown(m) => ErrorPrefix + FriendlyMessage(m)
  }

  /** `translateText(text, targetLang, sourceLang)`, with the network's answer
      `o` as a parameter; `o` is not consulted when no request is sent. */
  function TranslateText(text: string, targetLang: string, sourceLang: string, o: FetchOutcome): (r: string)
    ensures IsBlank(text) ==> r == ""
    ensures !IsBlank(text) && sourceLang != "auto" && targetLang == sourceLang ==> r == text
  {
    if IsBlank(text) then ""
    else if sourceLang != "auto" && targetLang == sourceLang then text
    else Displayed(Exchange(o))
  }

  /** Without a request the answer cannot matter: the result is the same for every outcome. */
  lemma NoFetchNoDependence(text: string, targetLang: string, sourceLang: string, o1: FetchOutcome, o2: FetchOutcome)
    requires !Fetches(text, targetLang, sourceLang)
    ensures TranslateText(text, targetLang, sourceLang, o1) == TranslateText(text, targetLang, sourceLang, o2)
  {
  }

  /** A card is left empty exactly when the text is blank. */
  lemma EmptyOnlyForBlankText(text: string, targetLang: string, sourceLang: string, o: FetchOutcome)
    ensures TranslateText(text, targetLang, sourceLang, o) == "" <==> IsBlank(text)
  {
    if !IsBlank(text) && text == "" {
      BlankIffAllWhitespace(text);
    }
  }

  /** Every failure is shown as `エラー: ` and one of the four friendly texts. */
  lemma FailuresAreCategorised(text: string, targetLang: string, sourceLang: string, o: FetchOutcome)
    requires Fetches(text, targetLang, sourceLang) && Exchange(o).Thrown?
    ensures var r := TranslateText(text, targetLang, sourceLang, o);
            && r == ErrorPrefix + FriendlyMessage(Exchange(o).message)
            && r in {ErrorPrefix + ConnectionFailure, ErrorPrefix + ServerFailure,
                     ErrorPrefix + RequestRefused, ErrorPrefix + GenericFailure}
  {
  }

  /** A request that `fetch` rejects is shown through the rejection's own
      message: the connection text when it mentions `Failed to fetch`. */
  lemma TransportFailureShown(text: string, targetLang: string, sourceLang: string, message: string)
    requires Fetches(text, targetLang, sourceLang)
    ensures TranslateText(text, targetLang, sourceLang, Rejected(message)) == ErrorPrefix + FriendlyMessage(message)
    ensures Includes(message, "Failed to fetch") ==>
              TranslateText(text, targetLang, sourceLang, Rejected(message)) == ErrorPrefix + ConnectionFailure
  {
  }

  /** An ok answer shows its `translatedText` verbatim, or the empty-result
      text when that member is missing or empty. */
  lemma OkAnswerShown(text: string, targetLang: string, sourceLang: string, status: nat, statusText: string, error: Option<string>, translated: Option<string>)
    requires Fetches(text, targetLang, sourceLang) && IsOk(status)
    ensures var r := TranslateText(text, targetLang, sourceLang, Answered(status, statusText, Document(error, translated)));
            r == (if Truthy(translated) then translated.value else EmptyResult)
    ensures TranslateText(text, targetLang, sourceLang, Answered(status, statusText, EmptyBody)) == EmptyResult
  {
  }

  /** A body that is the JSON literal `null` makes reading its members throw
      a `TypeError`, whatever the status; that message names no category, so
      the card shows the generic failure text. */
  lemma NullBodyIsGeneric(text: string, targetLang: string, sourceLang: string, status: nat, statusText: string)
    requires Fetches(text, targetLang, sourceLang)
    ensures TranslateText(text, targetLang, sourceLang, Answered(status, statusText, NullDocument))
            == ErrorPrefix + GenericFailure
  {
    var m := if IsOk(status) then NullAccess("translatedText") else NullAccess("error");
    assert Exchange(Answered(status, statusText, NullDocument)) == Thrown(m);
    PlainNullAccessHead();
    var name := if IsOk(status) then "translatedText" else "error";
    LacksLeadCharsAppend(NullAccessHead, name);
    LacksLeadCharsAppend(NullAccessHead + name, "')");
    KeywordFreeByLeadChars(m);
  }

  lemma PlainNullAccessHead()
    ensures LacksLeadChars(NullAccessHead)
  {
    PlainCannotRead();
    PlainProperties();
    PlainOfNull();
    LacksLeadCharsAppend("Cannot read ", "properties ");
    LacksLeadCharsAppend("Cannot read " + "properties ", "of null (reading '");
  }

  lemma PlainCannotRead()
    ensures LacksLeadChars("Cannot read ")
  {
  }

  lemma PlainProperties()
    ensures LacksLeadChars("properties ")
  {
  }

  lemma PlainOfNull()
    ensures LacksLeadChars("of null (reading '")
  {
  }

  /** A concatenation lacks the three characters when both parts do. */
  lemma LacksLeadCharsAppend(a: string, b: string)
    requires LacksLeadChars(a) && LacksLeadChars(b)
    ensures LacksLeadChars(a + b)
  {
    assert forall c :: c in a + b ==> c in a || c in b;
  }

  /** An ok answer that is not JSON ends in the generic failure text. */
  lemma OkButUnparsableIsGeneric(text: string, targetLang: string, sourceLang: string, status: nat, statusText: string)
    requires Fetches(text, targetLang, sourceLang) && IsOk(status)
    ensures TranslateText(text, targetLang, sourceLang, Answered(status, statusText, NotJson))
            == ErrorPrefix + GenericFailure
  {
    assert Exchange(Answered(status, statusText, NotJson)) == Thrown(UnreadableReply);
    PlainUnreadableReply();
    KeywordFreeByLeadChars(UnreadableReply);
    assert FriendlyMessage(UnreadableReply) == GenericFailure;
  }

  /** The text holds no `F`, `5` or `4`. */
  lemma PlainUnreadableReply()
    ensures LacksLeadChars(UnreadableReply)
  {
  }

  /** The message names none of the three failure categories. */
  predicate KeywordFree(message: string) {
    !Includes(message, "Failed to fetch") && !Includes(message, "500") && !Includes(message, "405")
  }

  /** A message the generic category catches is exactly a keyword-free one. */
  lemma GenericIffKeywordFree(message: string)
    ensures FriendlyMessage(message) == GenericFailure <==> KeywordFree(message)
  {
  }

  /** The message holds none of the keywords' first characters `F`, `5` and `4`. */
  predicate LacksLeadChars(message: string) {
    'F' !in message && '5' !in message && '4' !in message
  }

  /** A message without `F`, `5` and `4` names no category. */
  lemma KeywordFreeByLeadChars(message: string)
    requires LacksLeadChars(message)
    ensures KeywordFree(message)
  {
    MissingLeadChar(message, "Failed to fetch");
    MissingLeadChar(message, "500");
    MissingLeadChar(message, "405");
  }

  /** A truthy `error` from the server decides the message, whatever the
      status: the server's own texts lack `500`, so a 500 reply that carries
      one is shown as the generic failure, not as a server error. */
  lemma ServerMessageWins(text: string, targetLang: string, sourceLang: string, status: nat, statusText: string, error: string, translated: Option<string>)
    requires Fetches(text, targetLang, sourceLang) && !IsOk(status) && error != ""
    ensures TranslateText(text, targetLang, sourceLang, Answered(status, statusText, Document(Some(error), translated)))
            == ErrorPrefix + FriendlyMessage(error)
    ensures KeywordFree(error) ==>
            TranslateText(text, targetLang, sourceLang, Answered(status, statusText, Document(Some(error), translated)))
            == ErrorPrefix + GenericFailure
  {
  }

  /** A non-ok answer whose body is not JSON loses its status: whatever the
      status, the page shows the generic failure. */
  lemma UnparsableErrorHidesStatus(text: string, targetLang: string, sourceLang: string, status: nat, statusText: string)
    requires Fetches(text, targetLang, sourceLang) && !IsOk(status)
    ensures TranslateText(text, targetLang, sourceLang, Answered(status, statusText, NotJson))
            == ErrorPrefix + GenericFailure
  {
    assert Exchange(Answered(status, statusText, NotJson)) == Thrown(InvalidJson);
    PlainInvalidJson();
    KeywordFreeByLeadChars(InvalidJson);
    assert FriendlyMessage(InvalidJson) == GenericFailure;
  }

  /** The text holds no `F`, `5` or `4`. */
  lemma PlainInvalidJson()
    ensures LacksLeadChars(InvalidJson)
  {
  }

  /** If no occurrence of `sub` can start inside `p` (each position of `p`
      mismatches `sub` on its first or second character), then `p + s`
      contains `sub` only when `s` does. */
  lemma IncludesPastPrefix(p: string, s: string, sub: string)
    requires |sub| >= 2
    requires forall k {:trigger p[k]} :: 0 <= k < |p| ==> p[k] != sub[0] || (k + 1 < |p| && p[k + 1] != sub[1])
    ensures Includes(p + s, sub) ==> Includes(s, sub)
  {
    forall k | 0 <= k < |p|
      ensures !OccursAt(p + s, sub, k)
    {
      if k + |sub| <= |p + s| {
        var t := (p + s)[k..k + |sub|];
        assert t[0] == p[k];
        if k + 1 < |p| {
          assert t[1] == p[k + 1];
        }
        assert p[k] != sub[0] || (k + 1 < |p| && p[k + 1] != sub[1]);
        assert t[0] != sub[0] || t[1] != sub[1];
      }
    }
    if Includes(p + s, sub) {
      var i :| OccursAt(p + s, sub, i);
      assert s[i - |p|..i - |p| + |sub|] == (p + s)[i..i + |sub|];
      assert OccursAt(s, sub, i - |p|);
    }
  }

  /** The status line of a 500 answer names `500` and names a connection
      failure only through its status text. */
  lemma StatusLine500(statusText: string)
    ensures Includes(HttpError(500, statusText), "500")
    ensures Includes(HttpError(500, statusText), "Failed to fetch") ==> Includes(statusText, "Failed to fetch")
  {
    var p := "HTTPエラー: 500 ";
    StatusLine500Shape(statusText);
    IncludesInfix("HTTPエラー: ", "500", " " + statusText);
    StatusLine500NoStart();
    IncludesPastPrefix(p, statusText, "Failed to fetch");
  }

  /** The status line of a 500 answer, spelled out. */
  lemma StatusLine500Shape(statusText: string)
    ensures HttpError(500, statusText) == "HTTPエラー: 500 " + statusText
    ensures HttpError(500, statusText) == "HTTPエラー: " + "500" + (" " + statusText)
  {
    assert NatToString(500) == "500";
  }

  /** `Failed to fetch` cannot start inside `HTTPエラー: 500 `. */
  lemma StatusLine500NoStart()
    ensures var p := "HTTPエラー: 500 ";
            forall k {:trigger p[k]} :: 0 <= k < |p| ==> p[k] != 'F' || (k + 1 < |p| && p[k + 1] != 'a')
  {
    var p := "HTTPエラー: 500 ";
    assert 'F' !in p;
  }

  /** The status line of a 405 answer names `405`; it names a connection
      failure or `500` only through its status text. */
  lemma StatusLine405(statusText: string)
    ensures Includes(HttpError(405, statusText), "405")
    ensures Includes(HttpError(405, statusText), "Failed to fetch") ==> Includes(statusText, "Failed to fetch")
    ensures Includes(HttpError(405, statusText), "500") ==> Includes(statusText, "500")
  {
    var p := "HTTPエラー: 405 ";
    StatusLine405Shape(statusText);
    IncludesInfix("HTTPエラー: ", "405", " " + statusText);
    StatusLine405NoStart();
    IncludesPastPrefix(p, statusText, "Failed to fetch");
    IncludesPastPrefix(p, statusText, "500");
  }

  /** The status line of a 405 answer, spelled out. */
  lemma StatusLine405Shape(statusText: string)
    ensures HttpError(405, statusText) == "HTTPエラー: 405 " + statusText
    ensures HttpError(405, statusText) == "HTTPエラー: " + "405" + (" " + statusText)
  {
    assert NatToString(405) == "405";
  }

  /** Neither `Failed to fetch` nor `500` can start inside `HTTPエラー: 405 `. */
  lemma StatusLine405NoStart()
    ensures var p := "HTTPエラー: 405 ";
            forall k {:trigger p[k]} :: 0 <= k < |p| ==> p[k] != 'F' || (k + 1 < |p| && p[k + 1] != 'a')
    ensures var p := "HTTPエラー: 405 ";
            forall k {:trigger p[k]} :: 0 <= k < |p| ==> p[k] != '5' || (k + 1 < |p| && p[k + 1] != '0')
  {
    var p := "HTTPエラー: 405 ";
    assert 'F' !in p;
    assert forall k :: 0 <= k < |p| && p[k] == '5' ==> k == 11;
  }

  /** Without a usable `error`, a 500 answer is shown as a server error
      (unless the status text itself names a connection failure). */
  lemma Status500IsServerFailure(text: string, targetLang: string, sourceLang: string, statusText: string, body: BodyReading)
    requires Fetches(text, targetLang, sourceLang)
    requires body.EmptyBody? || (body.Document? && !Truthy(body.error))
    requires !Includes(statusText, "Failed to fetch")
    ensures TranslateText(text, targetLang, sourceLang, Answered(500, statusText, body)) == ErrorPrefix + ServerFailure
  {
    StatusLine500(statusText);
  }

  /** Without a usable `error`, a 405 answer is shown as a refused request
      (unless the status text itself names a connection failure or `500`). */
  lemma Status405IsRefused(text: string, targetLang: string, sourceLang: string, statusText: string, body: BodyReading)
    requires Fetches(text, targetLang, sourceLang)
    requires body.EmptyBody? || (body.Document? && !Truthy(body.error))
    requires !Includes(statusText, "Failed to fetch") && !Includes(statusText, "500")
    ensures TranslateText(text, targetLang, sourceLang, Answered(405, statusText, body)) == ErrorPrefix + RequestRefused
  {
    StatusLine405(statusText);
  }

  /** The source language `performTranslation` passes on: the selector's
      value, or the detected language when the selector says `auto`. */
  function EffectiveSource(text: string, selector: string): (src: string)
    ensures src != "auto"
    ensures selector == "auto" ==> src == DetectLanguage(text).Code() && src in {"ja", "en", "es", "pt"}
    ensures selector != "auto" ==> src == selector
  {
    if selector == "auto" then DetectLanguage(text).Code() else selector
  }

  /** The `forEach` callback of `performTranslation()` for one card, once
      its request settles: nothing for a blank input, the trimmed input on
      the card that needs no request, and the settled request otherwise. */
  function CardShows(input: string, selector: string, card: string, reply: FetchOutcome): (r: string)
    ensures r == "" <==> IsBlank(input)
    ensures CardFetches(input, selector, card) ==> r == Displayed(Exchange(reply))
    ensures !IsBlank(input) && !CardFetches(input, selector, card) ==> r == Trim(input)
  {
    var text := Trim(input);
    TrimIdempotent(input);
    if text == [] then ""
    else
      var src := EffectiveSource(text, selector);
      EmptyOnlyForBlankText(text, card, src, reply);
      TranslateText(text, card, src, reply)
  }

  /** `performTranslation()`: what each card shows once its request settles,
      given the input box, the source selector, the cards' languages and the
      answer each card's request would get. */
  function PerformTranslation(input: string, selector: string, cards: seq<string>, replies: seq<FetchOutcome>): (shown: seq<string>)
    requires |replies| == |cards|
    ensures |shown| == |cards|
    ensures forall i :: 0 <= i < |cards| ==> (shown[i] == "" <==> IsBlank(input))
    ensures forall i :: 0 <= i < |cards| && CardFetches(input, selector, cards[i]) ==>
              shown[i] == Displayed(Exchange(replies[i]))
    ensures forall i :: 0 <= i < |cards| && !IsBlank(input) && !CardFetches(input, selector, cards[i]) ==>
              shown[i] == Trim(input)
  {
    seq(|cards|, i requires 0 <= i < |cards| => CardShows(input, selector, cards[i], replies[i]))
  }

  /** The card for `card` sends a request during `performTranslation()`. */
  predicate CardFetches(input: string, selector: string, card: string) {
    var text := Trim(input);
    text != [] && Fetches(text, card, EffectiveSource(text, selector))
  }

  /** In `auto` mode the card of the detected language is the one that shows
      the input itself; every other card sends a request. */
  lemma AutoSkipsDetectedCard(input: string, cards: seq<string>, replies: seq<FetchOutcome>, i: int)
    requires |replies| == |cards| && !IsBlank(input) && 0 <= i < |cards|
    ensures cards[i] == DetectLanguage(Trim(input)).Code() ==>
              !CardFetches(input, "auto", cards[i])
              && PerformTranslation(input, "auto", cards, replies)[i] == Trim(input)
    ensures cards[i] != DetectLanguage(Trim(input)).Code() ==>
              CardFetches(input, "auto", cards[i])
              && PerformTranslation(input, "auto", cards, replies)[i] == Displayed(Exchange(replies[i]))
  {
    FetchUnlessSourceCard(input, "auto", cards[i]);
  }

  /** A blank input clears every card and sends no request. */
  lemma BlankInputClearsCards(input: string, selector: string, cards: seq<string>, replies: seq<FetchOutcome>)
    requires |replies| == |cards| && IsBlank(input)
    ensures forall i :: 0 <= i < |cards| ==> PerformTranslation(input, selector, cards, replies)[i] == ""
    ensures forall card :: !CardFetches(input, selector, card)
  {
  }

  /** With text present, a card sends a request exactly when its language
      differs from the effective source language. */
  lemma FetchUnlessSourceCard(input: string, selector: string, card: string)
    requires !IsBlank(input)
    ensures CardFetches(input, selector, card) <==> card != EffectiveSource(Trim(input), selector)
  {
    TrimIdempotent(input);
  }

  /** The card in the effective source language shows the trimmed input,
      whatever answer its request would have had. */
  lemma SourceCardShowsInput(input: string, selector: string, cards: seq<string>, replies: seq<FetchOutcome>, i: int)
    requires |replies| == |cards| && !IsBlank(input)
    requires 0 <= i < |cards| && cards[i] == EffectiveSource(Trim(input), selector)
    ensures PerformTranslation(input, selector, cards, replies)[i] == Trim(input)
  {
    TrimIdempotent(input);
  }

  /** Cards are isolated: what a card shows depends only on its own answer. */
  lemma CardsAreIndependent(input: string, selector: string, cards: seq<string>, r1: seq<FetchOutcome>, r2: seq<FetchOutcome>, i: int)
    requires |r1| == |cards| && |r2| == |cards| && 0 <= i < |cards| && r1[i] == r2[i]
    ensures PerformTranslation(input, selector, cards, r1)[i] == PerformTranslation(input, selector, cards, r2)[i]
  {
  }
}

=== FILE: http.dfy ===
/** HTTP facts shared by the page and the relay. */
module Http {

  /** `response.ok` of the Fetch standard: a status in the range 200 to 299. */
  predicate IsOk(status: nat) {
    200 <= status <= 299
  }
}

=== FILE: js_string.dfy ===
/**
 Operations of the ECMAScript String type that the relay relies on:
 `trim`, `includes`, `substring(0, n)` and the decimal rendering of a number
 inside a template literal. Strings are sequences of code points.
 */
module JsString {
  import opened Optional

  /** A string member is truthy: present and non-empty. */
  predicate Truthy(v: Option<string>) {
    v.Some? && v.value != ""
  }

  /** The characters `String.prototype.trim` strips: the WhiteSpace and
      LineTerminator productions of the ECMAScript language specification
      (sections 12.2 and 12.3 of ECMAScript 2023), space separators included. */
  predicate IsWhitespace(c: char) {
    || c == '\t' || c == '\n' || c == '\U{000B}' || c == '\U{000C}' || c == '\r'
    || c == ' ' || c == '\U{00A0}' || c == '\U{1680}'
    || ('\U{2000}' <= c <= '\U{200A}')
    || c == '\U{2028}' || c == '\U{2029}' || c == '\U{202F}' || c == '\U{205F}'
    || c == '\U{3000}' || c == '\U{FEFF}'
  }

  /** Every character of `s` is whitespace (the empty string included). */
  ghost predicate AllWhitespace(s: string) {
    forall k :: 0 <= k < |s| ==> IsWhitespace(s[k])
  }

  /** The index of the first non-whitespace character at or after `i`. */
  function SkipLeading(s: string, i: nat): (j: nat)
    requires i <= |s|
    ensures i <= j <= |s|
    ensures forall k :: i <= k < j ==> IsWhitespace(s[k])
    ensures j < |s| ==> !IsWhitespace(s[j])
    decreases |s| - i
  {
    if i < |s| && IsWhitespace(s[i]) then SkipLeading(s, i + 1) else i
  }

  /** The end of `s[lo..hi]` once trailing whitespace is dropped. */
  function SkipTrailing(s: string, lo: nat, hi: nat): (j: nat)
    requires lo <= hi <= |s|
    ensures lo <= j <= hi
    ensures forall k :: j <= k < hi ==> IsWhitespace(s[k])
    ensures lo < j ==> !IsWhitespace(s[j - 1])
    decreases hi
  {
    if lo < hi && IsWhitespace(s[hi - 1]) then SkipTrailing(s, lo, hi - 1) else hi
  }

  /** `s.trim()`: the slice of `s` between its leading and its trailing whitespace. */
  function Trim(s: string): (r: string)
    ensures |r| <= |s|
    ensures exists lo :: 0 <= lo <= |s| - |r| && r == s[lo..lo + |r|]
                         && AllWhitespace(s[..lo]) && AllWhitespace(s[lo + |r|..])
    ensures r != [] ==> !IsWhitespace(r[0]) && !IsWhitespace(r[|r| - 1])
  {
    var lo := SkipLeading(s, 0);
    var hi := SkipTrailing(s, lo, |s|);
    var r := s[lo..hi];
    assert AllWhitespace(s[..lo]) && AllWhitespace(s[hi..]);
    assert r == s[lo..lo + |r|];
    assert r != [] ==> r[0] == s[lo] && r[|r| - 1] == s[hi - 1];
    r
  }

  /** `!s.trim()`: the string is falsy once trimmed. */
  predicate IsBlank(s: string) {
    Trim(s) == []
  }

  /** A string is blank exactly when every character of it is whitespace. */
  lemma BlankIffAllWhitespace(s: string)
    ensures IsBlank(s) <==> AllWhitespace(s)
  {
    var r := Trim(s);
    var lo :| 0 <= lo <= |s| - |r| && r == s[lo..lo + |r|]
              && AllWhitespace(s[..lo]) && AllWhitespace(s[lo + |r|..]);
    if r == [] {
      forall k | 0 <= k < |s| ensures IsWhitespace(s[k]) {
        if k < lo { assert s[..lo][k] == s[k]; }
        else { assert s[lo..][k - lo] == s[k]; }
      }
    } else {
      assert s[lo] == r[0];
    }
  }

  /** Trimming a trimmed string changes nothing. */
  lemma TrimIdempotent(s: string)
    ensures Trim(Trim(s)) == Trim(s)
  {
    var r := Trim(s);
    if r != [] {
      TrimKeepsTightString(r);
    }
  }

  /** `s` has no whitespace at either end: what `trim` leaves. */
  predicate Tight(s: string) {
    s == [] || (!IsWhitespace(s[0]) && !IsWhitespace(s[|s| - 1]))
  }

  /** A string is its own trim exactly when it is tight. */
  lemma TightIffTrimmed(s: string)
    ensures Tight(s) <==> Trim(s) == s
  {
    if s != [] && Tight(s) {
      TrimKeepsTightString(s);
    }
  }

  /** A string without whitespace at either end is its own trim. */
  lemma TrimKeepsTightString(s: string)
    requires s != [] && !IsWhitespace(s[0]) && !IsWhitespace(s[|s| - 1])
    ensures Trim(s) == s
  {
    assert SkipLeading(s, 0) == 0;
    assert SkipTrailing(s, 0, |s|) == |s|;
  }

  /** `sub` starts at index `i` of `s`. */
  ghost predicate OccursAt(s: string, sub: string, i: int) {
    0 <= i && i + |sub| <= |s| && s[i..i + |sub|] == sub
  }

  /** `s.includes(sub)`, scanning left to right. */
  function Includes(s: string, sub: string): (b: bool)
    ensures b <==> exists i :: OccursAt(s, sub, i)
    decreases |s|
  {
    if |sub| > |s| then
      assert forall i :: !OccursAt(s, sub, i);
      false
    else if s[..|sub|] == sub then
      assert OccursAt(s, sub, 0);
      true
    else
      IncludesShift(s, sub);
      Includes(s[1..], sub)
  }

  /** Past a mismatch at index 0, `s` holds `sub` exactly when `s[1..]` does. */
  lemma IncludesShift(s: string, sub: string)
    requires |sub| <= |s| && s[..|sub|] != sub
    ensures (exists i :: OccursAt(s, sub, i)) <==> (exists i :: OccursAt(s[1..], sub, i))
  {
    if i :| OccursAt(s, sub, i) {
      assert i != 0;
      assert s[1..][i - 1..i - 1 + |sub|] == s[i..i + |sub|];
      assert OccursAt(s[1..], sub, i - 1);
    }
    if i :| OccursAt(s[1..], sub, i) {
      assert s[1..][i..i + |sub|] == s[i + 1..i + 1 + |sub|];
      assert OccursAt(s, sub, i + 1);
    }
  }

  /** A string without the first character of `sub` does not contain `sub`. */
  lemma MissingLeadChar(s: string, sub: string)
    requires sub != [] && sub[0] !in s
    ensures !Includes(s, sub)
  {
    if i :| OccursAt(s, sub, i) {
      assert false;
    }
  }

  /** A string contains every string it is the concatenation of. */
  lemma IncludesInfix(a: string, sub: string, b: string)
    ensures Includes(a + sub + b, sub)
  {
    assert (a + sub + b)[|a|..|a| + |sub|] == sub;
    assert OccursAt(a + sub + b, sub, |a|);
  }

  /** `s.substring(0, n)`: the first `n` characters, or all of `s` when it is shorter. */
  function Prefix(s: string, n: nat): (r: string)
    ensures |r| <= n
    ensures r <= s
    ensures |s| <= n ==> r == s
    ensures |s| > n ==> |r| == n
  {
    if |s| <= n then s else s[..n]
  }

  /** The decimal digit for `d`. */
  function Digit(d: nat): char
    requires d < 10
  {
    "0123456789"[d]
  }

  /** The numeric value of a digit character. */
  function DigitValue(c: char): nat {
    if '0' <= c <= '9' then (c as int - '0' as int) as nat else 0
  }

  /** The value of a string of decimal digits, most significant first. */
  function DecimalValue(s: string): nat {
    if s == [] then 0 else 10 * DecimalValue(s[..|s| - 1]) + DigitValue(s[|s| - 1])
  }

  /** Reading a digit back gives its value. */
  lemma DigitValueOfDigit(d: nat)
    requires d < 10
    ensures DigitValue(Digit(d)) == d
  {
  }

  /** `${n}` for a non-negative integer: its decimal digits without leading zeros. */
  function NatToString(n: nat): (r: string)
    ensures r != []
    ensures forall k :: 0 <= k < |r| ==> '0' <= r[k] <= '9'
    ensures |r| > 1 ==> r[0] != '0'
  {
    if n < 10 then [Digit(n)] else NatToString(n / 10) + [Digit(n % 10)]
  }

  /** Reading back the digits of `NatToString(n)` gives `n`. */
  lemma {:induction false} DecimalRoundTrip(n: nat)
    ensures DecimalValue(NatToString(n)) == n
  {
    var r := NatToString(n);
    if n >= 10 {
      DecimalRoundTrip(n / 10);
      assert r == NatToString(n / 10) + [Digit(n % 10)];
      assert r[..|r| - 1] == NatToString(n / 10);
      assert DigitValue(r[|r| - 1]) == n % 10 by { DigitValueOfDigit(n % 10); }
    } else {
      DigitValueOfDigit(n);
    }
  }
}

=== FILE: language.dfy ===
/**
 The client's language heuristic: four character classes tested in a fixed
 order against the input, first hit wins, English by default.
 */
module Language {

  /** The language codes the page knows: its four result cards. */
  datatype Lang = Ja | En | Es | Pt {

    /** The code the page and the server use for the language. */
    function Code(): string {
      match this
      case Ja => "ja"
      case En => "en"
      case Es => "es"
      case Pt => "pt"
    }
  }

  /** The four regular expressions of the heuristic, one character class each. */
  datatype CharClass = Japanese | English | Spanish | Portuguese {

    /** `c` is a member of the class. Only the Latin-letter class holds
        ASCII characters; the other three hold none. */
    predicate Matches(c: char)
      ensures Matches(c) ==> (this == English <==> c < '\U{0080}')
    {
      match this
      case Japanese =>
        ('\U{3040}' <= c <= '\U{309F}') || ('\U{30A0}' <= c <= '\U{30FF}')
        || ('\U{FF65}' <= c <= '\U{FF9F}')
      case English => ('a' <= c <= 'z') || ('A' <= c <= 'Z')
      case Spanish => c in {'á', 'é', 'í', 'ó', 'ú', 'ü', 'ñ', 'Á', 'É', 'Í', 'Ó', 'Ú', 'Ü', 'Ñ'}
      case Portuguese => c in {'á', 'é', 'í', 'ó', 'ú', 'â', 'ê', 'ô', 'ã', 'õ', 'ç', 'Á', 'É', 'Í', 'Ó', 'Ú', 'Â', 'Ê', 'Ô', 'Ã', 'Õ', 'Ç'}
    }
  }

  /** The accented letters only Portuguese claims: â ê ô ã õ ç in either case. */
  predicate PortugueseOnly(c: char) {
    c in {'â', 'ê', 'ô', 'ã', 'õ', 'ç', 'Â', 'Ê', 'Ô', 'Ã', 'Õ', 'Ç'}
  }

  /** `regex.test(text)`: some character of `s` is in the class. */
  function Occurs(s: string, cls: CharClass): (b: bool)
    ensures b <==> exists i :: 0 <= i < |s| && cls.Matches(s[i])
  {
    if s == [] then false
    else if cls.Matches(s[0]) then true
    else
      assert forall i :: 0 < i < |s| ==> s[i] == s[1..][i - 1];
      Occurs(s[1..], cls)
  }

  /** `detectLanguage(text)`. */
  function DetectLanguage(text: string): (l: Lang)
    ensures l == Ja <==> Occurs(text, Japanese)
    ensures l == Es <==> !Occurs(text, Japanese) && Occurs(text, Spanish)
    ensures l == Pt <==> !Occurs(text, Japanese) && !Occurs(text, Spanish) && Occurs(text, Portuguese)
    ensures l == En <==> !Occurs(text, Japanese) && !Occurs(text, Spanish) && !Occurs(text, Portuguese)
  {
    if Occurs(text, Japanese) then Ja
    else if Occurs(text, Spanish) then Es
    else if Occurs(text, Portuguese) then Pt
    else if Occurs(text, English) then En
    else En
  }

  /** The detected code is always one of the four card languages. */
  lemma DetectedCodeIsCardLanguage(text: string)
    ensures DetectLanguage(text).Code() in {"ja", "en", "es", "pt"}
    ensures DetectLanguage(text).Code() != "auto"
  {
  }

  /** Japanese wins whatever else the text contains. */
  lemma JapaneseDominates(text: string, i: int)
    requires 0 <= i < |text| && Japanese.Matches(text[i])
    ensures DetectLanguage(text) == Ja
  {
  }

  /** The Latin-letter test never changes the outcome: with no Japanese,
      Spanish or Portuguese character the answer is English, letters or not. */
  lemma LatinTestIsIrrelevant(text: string)
    requires forall i :: 0 <= i < |text| ==>
               !Japanese.Matches(text[i]) && !Spanish.Matches(text[i]) && !Portuguese.Matches(text[i])
    ensures DetectLanguage(text) == En
  {
  }

  /** Every accented vowel the two classes share counts as Spanish first, so
      Portuguese is chosen exactly when a letter only Portuguese claims occurs
      and no Spanish or Japanese character does. */
  lemma PortugueseNeedsItsOwnLetter(text: string)
    ensures DetectLanguage(text) == Pt <==>
              && (exists i :: 0 <= i < |text| && PortugueseOnly(text[i]))
              && !Occurs(text, Spanish) && !Occurs(text, Japanese)
  {
    if DetectLanguage(text) == Pt {
      var i :| 0 <= i < |text| && Portuguese.Matches(text[i]);
      assert !Spanish.Matches(text[i]);
      assert PortugueseOnly(text[i]);
    }
    if i :| 0 <= i < |text| && PortugueseOnly(text[i]) {
      assert Portuguese.Matches(text[i]);
    }
  }

  /** Kana detects as Japanese. */
  lemma KanaExample()
    ensures DetectLanguage("こんにちは") == Ja
  {
    assert Japanese.Matches("こんにちは"[0]);
  }

  /** Plain ASCII letters fall through to English. */
  lemma AsciiExample()
    ensures DetectLanguage("Hello") == En
  {
    var s := "Hello";
    forall i | 0 <= i < |s|
      ensures !Japanese.Matches(s[i]) && !Spanish.Matches(s[i]) && !Portuguese.Matches(s[i])
    {
      assert 'A' <= s[i] <= 'z';
    }
  }

  /** An eñe detects as Spanish. */
  lemma SpanishExample()
    ensures DetectLanguage("año") == Es
  {
    var s := "año";
    assert Spanish.Matches(s[1]);
    forall i | 0 <= i < |s| ensures !Japanese.Matches(s[i]) {
      assert s[i] <= 'ñ';
    }
  }

  /** A cedilla with no shared vowel detects as Portuguese. */
  lemma PortugueseExample()
    ensures DetectLanguage("ação") == Pt
  {
    var s := "ação";
    assert Portuguese.Matches(s[1]);
    forall i | 0 <= i < |s| ensures !Japanese.Matches(s[i]) && !Spanish.Matches(s[i]) {
      assert s[i] == 'a' || s[i] == 'ç' || s[i] == 'ã' || s[i] == 'o';
    }
  }
}

=== FILE: optional.dfy ===
/** A value that may be missing: JavaScript's `undefined` next to a present value. */
module Optional {

  datatype Option<+T> = None | Some(value: T)
}

=== FILE: page.dfy ===
/**
 The page's event handling (app.js): the input box's one-slot debounce
 timer, the translate button, and the copy button's guard. Timers are a
 state, not a clock: a pending timer fires when the `TimerFired` event says so.
 */
module Page {
  import opened JsString
  import Client

  /** The debounce delay of live translation, in milliseconds. */
  const DebounceMs: nat := 500

  /** The one timer slot `translateTimer`. */
  datatype Timer = Idle | Pending(delayMs: nat)

  /** The input box's value and the timer slot. */
  datatype State = State(input: string, timer: Timer)

  /** What the page does in response to an event. */
  datatype Effect =
    | ClearCards            // clearTranslations()
    | Translate(input: string)  // performTranslation() reading this input value

  datatype Event =
    | Typed(value: string)  // an `input` event leaving this value in the box
    | TimerFired            // the pending timer elapses
    | Clicked               // the translate button

  /** One event: the next state and the effects it causes, in order. */
  function Step(s: State, e: Event): (r: (State, seq<Effect>))
    ensures e.Typed? ==> r.0.input == e.value
    ensures !e.Typed? ==> r.0.input == s.input
    ensures e.Typed? ==> Translates(r.1) == 0
  {
    match e
    case Typed(v) =>
      if IsBlank(v) then (State(v, Idle), [ClearCards])
      else (State(v, Pending(DebounceMs)), [])
    case TimerFired =>
      if s.timer.Pending? then (State(s.input, Idle), [Translate(s.input)]) else (s, [])
    case Clicked => (s, [Translate(s.input)])
  }

  /** How many translations the effects start. */
  function Translates(effects: seq<Effect>): nat {
    if effects == [] then 0
    else (if effects[0].Translate? then 1 else 0) + Translates(effects[1..])
  }

  /** Effect counts add up over concatenation. */
  lemma {:induction false} TranslatesAppend(a: seq<Effect>, b: seq<Effect>)
    ensures Translates(a + b) == Translates(a) + Translates(b)
  {
    if a != [] {
      assert (a + b)[0] == a[0];
      assert (a + b)[1..] == a[1..] + b;
      TranslatesAppend(a[1..], b);
    } else {
      assert a + b == b;
    }
  }

  /** A run of events from `s`: the final state and all effects, in order. */
  function Run(s: State, events: seq<Event>): (State, seq<Effect>)
    decreases |events|
  {
    RunWith(Step, s, events)
  }

  /** A run under any step function: each event in turn, effects concatenated. */
  function RunWith(step: (State, Event) -> (State, seq<Effect>), s: State, events: seq<Event>): (State, seq<Effect>)
    decreases |events|
  {
    if events == [] then (s, [])
    else
      var (s1, e1) := step(s, events[0]);
      var (s2, e2) := RunWith(step, s1, events[1..]);
      (s2, e1 + e2)
  }

  /** An input event first cancels whatever was pending: its result does not
      depend on the state it arrives in. */
  lemma TypingCancelsPending(s1: State, s2: State, v: string)
    ensures Step(s1, Typed(v)) == Step(s2, Typed(v))
  {
  }

  /** A blank value leaves no timer and clears the cards; any other value
      leaves exactly one timer, of 500 ms, and starts nothing yet. */
  lemma TypingSchedules(s: State, v: string)
    ensures IsBlank(v) ==> Step(s, Typed(v)) == (State(v, Idle), [ClearCards])
    ensures !IsBlank(v) ==> Step(s, Typed(v)).0.timer == Pending(500) && Step(s, Typed(v)).1 == []
  {
  }

  /** The translate button translates the value in the box at once and
      leaves a pending timer alone. */
  lemma ClickTranslatesNow(s: State)
    ensures Step(s, Clicked) == (s, [Translate(s.input)])
  {
  }

  /** Because the button does not cancel the timer, a click inside the
      debounce window is followed by a second translation of the same value. */
  lemma ClickThenTimerTranslatesTwice(s: State, v: string)
    requires !IsBlank(v)
    ensures var (t, effects) := Run(s, [Typed(v), Clicked, TimerFired]);
            && effects == [Translate(v), Translate(v)]
            && Translates(effects) == 2
            && t == State(v, Idle)
  {
    RunCons(s, [Typed(v), Clicked, TimerFired]);
    var s1 := State(v, Pending(DebounceMs));
    assert [Typed(v), Clicked, TimerFired][1..] == [Clicked, TimerFired];
    RunCons(s1, [Clicked, TimerFired]);
    assert [Clicked, TimerFired][1..] == [TimerFired];
    RunCons(s1, [TimerFired]);
    assert [TimerFired][1..] == [];
    assert Run(State(v, Idle), []) == (State(v, Idle), []);
    assert Translates([Translate(v)]) == 1;
    TranslatesAppend([Translate(v)], [Translate(v)]);
  }

  /** Only typing events: a burst of keystrokes. */
  predicate AllTyped(events: seq<Event>) {
    forall i :: 0 <= i < |events| ==> events[i].Typed?
  }

  /** After a burst of input events, the box holds the last value, the timer
      is pending exactly when that value is not blank, and nothing has been
      translated. */
  lemma {:induction false} BurstLeavesOneTimer(s: State, events: seq<Event>)
    requires events != [] && AllTyped(events)
    decreases |events|
    ensures var (t, effects) := Run(s, events);
            var last := events[|events| - 1].value;
            && t.input == last
            && t.timer == (if IsBlank(last) then Idle else Pending(DebounceMs))
            && Translates(effects) == 0
  {
    var (s1, e1) := Step(s, events[0]);
    RunCons(s, events);
    if |events| > 1 {
      BurstLeavesOneTimer(s1, events[1..]);
      var (s2, e2) := Run(s1, events[1..]);
      TranslatesAppend(e1, e2);
    } else {
      assert Run(s1, []) == (s1, []);
      assert e1 + [] == e1;
    }
  }

  /** Any burst of input events followed by the timer firing starts exactly
      one translation, of the value present when the timer fires, unless that
      value is blank, in which case none starts. */
  lemma BurstThenFire(s: State, events: seq<Event>)
    requires events != [] && AllTyped(events)
    ensures var (t, effects) := Run(s, events + [TimerFired]);
            var last := events[|events| - 1].value;
            && Translates(effects) == (if IsBlank(last) then 0 else 1)
            && (!IsBlank(last) ==> Translate(last) in effects)
            && t.timer == Idle
  {
    RunAppend(s, events, [TimerFired]);
    BurstLeavesOneTimer(s, events);
    var (t, e1) := Run(s, events);
    var (u, e2) := Run(t, [TimerFired]);
    assert Run(u, []) == (u, []);
    TranslatesAppend(e1, e2);
  }

  /** A run of a non-empty sequence: its first step, then the rest. */
  lemma RunCons(s: State, events: seq<Event>)
    requires events != []
    ensures var (s1, e1) := Step(s, events[0]);
            var (t, rest) := Run(s1, events[1..]);
            Run(s, events) == (t, e1 + rest)
  {
  }

  /** Running two event sequences one after the other is running their concatenation. */
  lemma RunAppend(s: State, a: seq<Event>, b: seq<Event>)
    ensures Run(s, a + b) == (Run(Run(s, a).0, b).0, Run(s, a).1 + Run(Run(s, a).0, b).1)
  {
    RunWithAppend(Step, s, a, b);
  }

  /** The same law for any step function, by induction on the first sequence. */
  lemma {:induction false} RunWithAppend(step: (State, Event) -> (State, seq<Effect>), s: State, a: seq<Event>, b: seq<Event>)
    ensures var (t, ea) := RunWith(step, s, a);
            var (u, eb) := RunWith(step, t, b);
            RunWith(step, s, a + b) == (u, ea + eb)
    decreases |a|
  {
    if a == [] {
      assert a + b == b;
      assert [] + RunWith(step, s, b).1 == RunWith(step, s, b).1;
    } else {
      assert (a + b)[0] == a[0];
      assert (a + b)[1..] == a[1..] + b;
      var (s1, e1) := step(s, a[0]);
      RunWithAppend(step, s1, a[1..], b);
      var (t, ea) := RunWith(step, s1, a[1..]);
      var (u, eb) := RunWith(step, t, b);
      assert RunWith(step, s, a) == (t, e1 + ea);
      assert RunWith(step, s, a + b) == (u, e1 + (ea + eb));
      assert e1 + (ea + eb) == (e1 + ea) + eb;
    }
  }

  /** The copy button copies the card's text only when it is non-empty and
      is not the loading placeholder or any other text mentioning `翻訳中`. */
  predicate CanCopy(cardText: string)
    ensures CanCopy(cardText) <==>
              cardText != "" && forall i :: !OccursAt(cardText, "翻訳中", i)
  {
    cardText != "" && !Includes(cardText, "翻訳中")
  }

  /** The loading placeholder and the generic failure message mention
      `翻訳中`, so neither is ever copied; nor is an empty card. */
  lemma CopyRefusesPlaceholders()
    ensures !CanCopy(Client.Loading)
    ensures !CanCopy("")
    ensures !CanCopy(Client.ErrorPrefix + Client.GenericFailure)
  {
    assert Client.Loading == [] + "翻訳中" + "...";
    IncludesInfix([], "翻訳中", "...");
    assert Client.ErrorPrefix + Client.GenericFailure == Client.ErrorPrefix + "翻訳中" + "にエラーが発生しました";
    IncludesInfix(Client.ErrorPrefix, "翻訳中", "にエラーが発生しました");
  }

  /** Text without `翻` is copied when non-empty. */
  lemma CopyAcceptsText(cardText: string)
    requires cardText != "" && '翻' !in cardText
    ensures CanCopy(cardText)
  {
    MissingLeadChar(cardText, "翻訳中");
  }

  /** A translated word is copied. */
  lemma CopyHolaExample()
    ensures CanCopy("Hola")
  {
    CopyAcceptsText("Hola");
  }
}

=== FILE: relay.dfy ===
/**
 The page and the relay together: a reply of the handler as the page reads
 it, and what a card ends up showing for each way the handler can answer.
 */
module Relay {
  import opened Optional
  import opened Http
  import Client
  import Server

  /** The body the page sends for one card: all three members are strings. */
  function RequestBody(text: string, targetLang: string, sourceLang: string): Server.Body {
    Server.Body(Some(text), Some(targetLang), Some(sourceLang))
  }

  /** A reply as `fetch` hands it to the page: its status, and a JSON object
      whose `error` and `translatedText` members are the reply's. */
  function Delivered(r: Server.Reply, statusText: string): (o: Client.FetchOutcome)
    ensures o.Answered? && o.status == r.Status() && o.statusText == statusText && o.body.Document?
    ensures o.body.error == r.Error()
    ensures o.body.translatedText == (if r.Translated? then Some(r.translatedText) else None)
  {
    Client.Answered(r.Status(), statusText,
      Client.Document(r.Error(), if r.Translated? then Some(r.translatedText) else None))
  }

  /** None of the relay's error texts names a category the page recognises. */
  lemma RelayErrorTextsKeywordFree(r: Server.Reply)
    requires !r.Translated?
    ensures r.Error().Some? && r.Error().value != "" && Client.KeywordFree(r.Error().value)
  {
    ErrorTextsAvoidLeadChars(r);
    Client.KeywordFreeByLeadChars(r.Error().value);
  }

  /** The relay's error texts are non-empty and hold no `F`, `5` or `4`. */
  lemma ErrorTextsAvoidLeadChars(r: Server.Reply)
    requires !r.Translated?
    ensures r.Error().Some? && r.Error().value != "" && Client.LacksLeadChars(r.Error().value)
  {
    match r
    case MissingFields(_) => PlainMissingFieldsError();
    case MissingKey => PlainMissingKeyError();
    case Unreachable(_) => PlainUnreachableError();
    case UpstreamError(_, _) => PlainUpstreamFailure();
    case Unparsable(_) => PlainUnparsableError();
    case Unexpected(_) => PlainUnexpectedError();
  }

  // One lemma per error literal: each checks a single literal for the three
  // characters, which the verifier settles quickly on its own but slowly
  // when several literals share one proof.

  lemma PlainMissingFieldsError()
    ensures Server.MissingFieldsError != "" && Client.LacksLeadChars(Server.MissingFieldsError)
  {
  }

  lemma PlainMissingKeyError()
    ensures Server.MissingKeyError != "" && Client.LacksLeadChars(Server.MissingKeyError)
  {
  }

  lemma PlainUnreachableError()
    ensures Server.UnreachableError != "" && Client.LacksLeadChars(Server.UnreachableError)
  {
  }

  lemma PlainUpstreamFailure()
    ensures Server.UpstreamFailure != "" && Client.LacksLeadChars(Server.UpstreamFailure)
  {
  }

  lemma PlainUnparsableError()
    ensures Server.UnparsableError != "" && Client.LacksLeadChars(Server.UnparsableError)
  {
  }

  lemma PlainUnexpectedError()
    ensures Server.UnexpectedError != "" && Client.LacksLeadChars(Server.UnexpectedError)
  {
  }

  /** For a card that sends a request, any reply whose status is an error
      status exactly when it is not a translation (as every reply of the
      handler does) is shown as: its translation, the empty-result text for an
      empty translation, or the generic failure text for every error reply. */
  lemma CardShowsReply(text: string, targetLang: string, sourceLang: string, r: Server.Reply, statusText: string)
    requires Client.Fetches(text, targetLang, sourceLang)
    requires r.Translated? <==> IsOk(r.Status())
    ensures var shown := Client.TranslateText(text, targetLang, sourceLang, Delivered(r, statusText));
            && (r.Translated? && r.translatedText != "" ==> shown == r.translatedText)
            && (r.Translated? && r.translatedText == "" ==> shown == Client.EmptyResult)
            && (!r.Translated? ==> shown == Client.ErrorPrefix + Client.GenericFailure)
  {
    var translated := if r.Translated? then Some(r.translatedText) else None;
    if r.Translated? {
      Client.OkAnswerShown(text, targetLang, sourceLang, r.Status(), statusText, r.Error(), translated);
    } else {
      RelayErrorTextsKeywordFree(r);
      Client.ServerMessageWins(text, targetLang, sourceLang, r.Status(), statusText, r.Error().value, translated);
    }
  }

  /** End to end, for a card that sends a request: a translation is shown as
      the relay trimmed it (the empty-result text if that is empty), and every
      error reply of the relay, a 500 included, reaches the user as the generic
      failure text, because its `error` member is truthy and names no category. */
  lemma CardShowsRelayReply(text: string, targetLang: string, sourceLang: string, hasKey: bool,
                            upstream: Server.Upstream, requestId: string, statusText: string)
    requires Client.Fetches(text, targetLang, sourceLang)
    ensures var r := Server.Handle(RequestBody(text, targetLang, sourceLang), hasKey, upstream, requestId);
            var shown := Client.TranslateText(text, targetLang, sourceLang, Delivered(r, statusText));
            && (r.Translated? && r.translatedText != "" ==> shown == r.translatedText)
            && (r.Translated? && r.translatedText == "" ==> shown == Client.EmptyResult)
            && (!r.Translated? ==> shown == Client.ErrorPrefix + Client.GenericFailure)
  {
    var r := Server.Handle(RequestBody(text, targetLang, sourceLang), hasKey, upstream, requestId);
    CardShowsReply(text, targetLang, sourceLang, r, statusText);
  }

  /** Without an API key on the relay, every card that sends a request shows
      the generic failure text, never the server-error text. */
  lemma MissingKeyShowsGeneric(text: string, targetLang: string, sourceLang: string,
                               upstream: Server.Upstream, requestId: string, statusText: string)
    requires Client.Fetches(text, targetLang, sourceLang) && targetLang != ""
    ensures var r := Server.Handle(RequestBody(text, targetLang, sourceLang), false, upstream, requestId);
            && r.Status() == 500
            && Client.TranslateText(text, targetLang, sourceLang, Delivered(r, statusText))
               == Client.ErrorPrefix + Client.GenericFailure
  {
    CardShowsRelayReply(text, targetLang, sourceLang, false, upstream, requestId, statusText);
    assert text != "";
  }
}

=== FILE: server.dfy ===
/**
 The relay's request handling (server.js): the CORS origin check and the
 `POST /api/translate` handler, with the environment's API key reduced to
 whether it is set and the upstream generative-language call reduced to its
 outcome.
 */
module Server {
  import opened Optional
  import opened JsString
  import opened Http

  /** Origins the CORS policy lets through besides requests without one. */
  const AllowedOrigins: seq<string> :=
    ["https://miyagi-sensei-098.github.io", "http://localhost:3000", "http://127.0.0.1:3000"]

  /** `xs.indexOf(x)`: the first index holding `x`, or -1 when there is none. */
  function IndexOf(xs: seq<string>, x: string): (r: int)
    ensures -1 <= r < |xs|
    ensures r == -1 <==> x !in xs
    ensures r >= 0 ==> xs[r] == x && x !in xs[..r]
  {
    if xs == [] then -1
    else if xs[0] == x then 0
    else
      var r := IndexOf(xs[1..], x);
      assert xs == [xs[0]] + xs[1..];
      if r == -1 then -1
      else
        assert xs[..r + 1] == [xs[0]] + xs[1..][..r];
        r + 1
  }

  /** The CORS `origin` callback: a falsy origin (no header, or an empty one)
      or one of the allow-listed origins, compared exactly. */
  function OriginAllowed(origin: Option<string>): (ok: bool)
    ensures ok <==> !Truthy(origin) || origin.value in AllowedOrigins
  {
    !Truthy(origin) || IndexOf(AllowedOrigins, origin.value) != -1
  }

  /** The allow-list is exact: listed origins and requests without an origin
      pass, anything else is refused, a trailing slash or another port included. */
  lemma OriginPolicy(origin: string)
    ensures OriginAllowed(None)
    ensures forall i :: 0 <= i < |AllowedOrigins| ==> OriginAllowed(Some(AllowedOrigins[i]))
    ensures origin != "" && origin !in AllowedOrigins ==> !OriginAllowed(Some(origin))
    ensures !OriginAllowed(Some("https://miyagi-sensei-098.github.io/"))
    ensures !OriginAllowed(Some("http://localhost:8080"))
  {
    assert "https://miyagi-sensei-098.github.io/" != AllowedOrigins[0];
    assert |"https://miyagi-sensei-098.github.io/"| != |AllowedOrigins[1]|;
    assert |"https://miyagi-sensei-098.github.io/"| != |AllowedOrigins[2]|;
    assert "http://localhost:8080"[17] != AllowedOrigins[1][17];
    assert |"http://localhost:8080"| != |AllowedOrigins[0]|;
    assert "http://localhost:8080"[7] != AllowedOrigins[2][7];
  }

  /** The request body `{text, targetLang, sourceLang}`; each member is a
      string or missing. */
  datatype Body = Body(text: Option<string>, targetLang: Option<string>, sourceLang: Option<string>)

  /** `sourceLang`, which defaults to `auto` only when the member is missing. */
  function SourceLang(body: Body): (source: string)
    ensures body.sourceLang.Some? ==> source == body.sourceLang.value
    ensures body.sourceLang.None? ==> source == "auto"
  {
    match body.sourceLang
    case None => "auto"
    case Some(s) => s
  }

  /** The `received` echo of a 400 reply: which required members were truthy. */
  datatype Received = Received(text: bool, targetLang: bool, sourceLang: string)

  /** The `details` of an upstream error reply: the upstream body as JSON. */
  datatype ErrorDetails =
    | EmptyObject                // the upstream body was empty
    | Forwarded(raw: string)     // the JSON document the upstream body holds
    | Wrapped(excerpt: string)   // {error: 無効なJSONレスポンス, details: excerpt} for a non-JSON body

  /** The generative-language reply shape the handler reads: each level may be missing. */
  datatype Part = Part(text: Option<string>)
  datatype Content = Content(parts: Option<seq<Part>>)
  datatype Candidate = Candidate(content: Option<Content>)
  datatype Generated = Generated(candidates: Option<seq<Candidate>>)

  /** What `JSON.parse` makes of a non-empty upstream body. */
  datatype Parsed = Malformed(message: string) | NullDocument | Document(doc: Generated)

  /** The upstream call: it could not be made, its body could not be read
      (a reset or the 30-second timeout striking while `response.text()` is
      awaited), or it was answered. `parsed` is what parsing `raw` gives,
      consulted only when `raw` is not empty. */
  datatype Upstream =
    | ConnectFailed(message: string)
    | BodyFailed(message: string)
    | Answered(status: nat, raw: string, parsed: Parsed)

  const MissingFieldsError := "テキストとターゲット言語を指定してください"
  const MissingKeyError := "サーバー設定エラー: APIキーが設定されていません"
  const UnreachableError := "翻訳サービスに接続できませんでした"
  const UpstreamFailure := "翻訳サービスでエラーが発生しました"
  const UnparsableError := "翻訳結果の解析に失敗しました"
  const UnexpectedError := "翻訳処理中に予期せぬエラーが発生しました"
  /** The longest excerpt of a non-JSON upstream error body that is passed on. */
  const ExcerptLength: nat := 500

  /** The handler's reply, one variant per way the request can end. */
  datatype Reply =
    | MissingFields(received: Received)
    | MissingKey
    | Unreachable(reason: string)
    | UpstreamError(upstreamStatus: nat, details: ErrorDetails)
    | Unparsable(reason: string)
    | Unexpected(requestId: string)
    | Translated(translatedText: string, detectedSourceLanguage: string, requestId: string)
  {
    /** The HTTP status the reply is sent with. */
    function Status(): nat {
      match this
      case MissingFields(_) => 400
      case MissingKey => 500
      case Unreachable(_) => 500
      case UpstreamError(status, _) => status
      case Unparsable(_) => 500
      case Unexpected(_) => 500
      case Translated(_, _, _) => 200
    }

    /** The `error` member of the reply body, missing on success. */
    function Error(): Option<string> {
      match this
      case MissingFields(_) => Some(MissingFieldsError)
      case MissingKey => Some(MissingKeyError)
      case Unreachable(_) => Some(UnreachableError)
      case UpstreamError(_, _) => Some(UpstreamFailure)
      case Unparsable(_) => Some(UnparsableError)
      case Unexpected(_) => Some(UnexpectedError)
      case Translated(_, _, _) => None
    }
  }

  /** The opening words of every prompt. */
  const PromptHead := "Translate the following text from "

  /** The source phrase of the prompt: `auto` is spelled out, so it reads the
      same as an explicit source of that very phrase. */
  function SourcePhrase(source: string): (phrase: string)
    ensures source != "auto" ==> phrase == source
    ensures phrase == "auto-detected language" <==> source in {"auto", "auto-detected language"}
  {
    if source == "auto" then "auto-detected language" else source
  }

  /** The instruction sent upstream, embedding the languages and the literal text. */
  function Prompt(source: string, target: string, text: string): (p: string)
    ensures |p| > |PromptHead| + |text|
    ensures p[..|PromptHead|] == PromptHead
    ensures p[|p| - |text|..] == text
  {
    var head := PromptHead + SourcePhrase(source) + " to " + target + ": ";
    assert (head + text)[..|PromptHead|] == PromptHead;
    assert (head + text)[|head|..] == text;
    head + text
  }

  /** The prompt ends with the text verbatim, so the text can be read back
      from it and two texts never share a prompt. */
  lemma PromptEmbedsText(source: string, target: string, text: string, other: string)
    ensures var p := Prompt(source, target, text);
            |p| > |text| && p[|p| - |text|..] == text
    ensures Prompt(source, target, text) == Prompt(source, target, other) ==> text == other
  {
    var head := PromptHead + SourcePhrase(source) + " to " + target + ": ";
    assert Prompt(source, target, text) == head + text;
    assert Prompt(source, target, other) == head + other;
    assert (head + text)[|head|..] == text;
    assert (head + other)[|head|..] == other;
  }

  /** The prompt names `auto` as "auto-detected language" and every other
      source by its code, so an explicit source of that very phrase reads the
      same as `auto`. */
  lemma PromptSource(target: string, text: string, source: string)
    ensures source != "auto" ==>
              Prompt(source, target, text) == "Translate the following text from " + source + " to " + target + ": " + text
    ensures Prompt("auto", target, text) == Prompt("auto-detected language", target, text)
  {
  }

  /** `data.candidates?.[0]?.content?.parts?.[0]?.text`: present only when
      every level of the chain is, and then the first part's text. */
  function FirstCandidateText(doc: Generated): (t: Option<string>)
    ensures doc.candidates.None? || doc.candidates.value == [] ==> t.None?
    ensures && doc.candidates.Some? && doc.candidates.value != []
            && doc.candidates.value[0].content.Some?
            && doc.candidates.value[0].content.value.parts.Some?
            && doc.candidates.value[0].content.value.parts.value != []
            ==> t == doc.candidates.value[0].content.value.parts.value[0].text
    ensures t.Some? ==>
              && doc.candidates.Some? && doc.candidates.value != []
              && doc.candidates.value[0].content.Some?
              && doc.candidates.value[0].content.value.parts.Some?
              && doc.candidates.value[0].content.value.parts.value != []
              && t == doc.candidates.value[0].content.value.parts.value[0].text
  {
    if doc.candidates.None? || doc.candidates.value == [] then None
    else
      var content := doc.candidates.value[0].content;
      if content.None? || content.value.parts.None? || content.value.parts.value == [] then None
      else content.value.parts.value[0].text
  }

  /** The translation before trimming: the first candidate's text when truthy,
      the request's own text otherwise. */
  function Extracted(doc: Generated, text: string): (t: string)
    ensures var c := FirstCandidateText(doc); c.Some? && c.value != "" ==> t == c.value
    ensures var c := FirstCandidateText(doc); c.None? || c.value == "" ==> t == text
  {
    var c := FirstCandidateText(doc);
    if c.Some? && c.value != "" then c.value else text
  }

  /** The request passes validation: `text` and `targetLang` are truthy. */
  predicate Valid(body: Body) {
    Truthy(body.text) && Truthy(body.targetLang)
  }

  /** The prompt sent upstream, if the handler makes the call at all. */
  function Outbound(body: Body, hasKey: bool): (prompt: Option<string>)
    ensures prompt.Some? <==> Valid(body) && hasKey
  {
    if Valid(body) && hasKey then Some(Prompt(SourceLang(body), body.targetLang.value, body.text.value)) else None
  }

  /** The prompt a valid request with a key sends: the template filled with
      the request's source (spelled out for `auto`), target and text. A
      missing `sourceLang` reads as `auto`. */
  lemma RequestPrompt(body: Body)
    requires Valid(body)
    ensures Outbound(body, true) ==
              Some("Translate the following text from "
                   + (if SourceLang(body) == "auto" then "auto-detected language" else SourceLang(body))
                   + " to " + body.targetLang.value + ": " + body.text.value)
    ensures body.sourceLang.None? ==>
              Outbound(body, true) ==
                Some("Translate the following text from auto-detected language to "
                     + body.targetLang.value + ": " + body.text.value)
  {
    assert "Translate the following text from " + "auto-detected language" + " to "
        == "Translate the following text from auto-detected language to ";
  }

  /** The `details` of an upstream error: `{}` for an empty body, the parsed
      document, or a wrapper holding the first 500 characters of a non-JSON body. */
  function ErrorDetailsOf(raw: string, parsed: Parsed): (d: ErrorDetails)
    ensures d == EmptyObject <==> raw == ""
    ensures d.Forwarded? ==> d.raw == raw && !parsed.Malformed?
    ensures d.Wrapped? ==> parsed.Malformed? && |d.excerpt| <= ExcerptLength && d.excerpt <= raw
    ensures d.Wrapped? && |raw| <= ExcerptLength ==> d.excerpt == raw
    ensures d.Wrapped? && |raw| > ExcerptLength ==> d.excerpt == raw[..ExcerptLength]
  {
    if raw == "" then EmptyObject
    else if parsed.Malformed? then Wrapped(Prefix(raw, ExcerptLength))
    else Forwarded(raw)
  }

  /** The 200 reply for an ok JSON document: the trimmed translation, the
      source as echoed back, and the request id. */
  function Success(doc: Generated, text: string, source: string, requestId: string): (r: Reply)
    ensures r.Translated? && r.requestId == requestId
    ensures Tight(r.translatedText)
    ensures r.translatedText == Trim(Extracted(doc, text))
  {
    var t := Extracted(doc, text);
    Translated(Trim(t), if source == "auto" then "auto-detected" else source, requestId)
  }

  /** The reply to an answered upstream call: the status is passed on for a
      non-ok answer; an ok body is read as JSON, an empty one as `{}`. */
  function FromAnswer(text: string, source: string, status: nat, raw: string, parsed: Parsed, requestId: string): (r: Reply)
    ensures r.Translated? ==> r.requestId == requestId && Tight(r.translatedText)
    ensures r.Translated? <==> IsOk(r.Status())
  {
    if !IsOk(status) then
      var r := UpstreamError(status, ErrorDetailsOf(raw, parsed));
      assert r.Status() == status;
      r
    else if raw == "" then Success(Generated(None), text, source, requestId)
    else
      match parsed
      case Malformed(message) => Unparsable(message)
      case NullDocument => Unexpected(requestId)
      case Document(doc) => Success(doc, text, source, requestId)
  }

  /** The `POST /api/translate` handler. */
  function Handle(body: Body, hasKey: bool, upstream: Upstream, requestId: string): (r: Reply)
    ensures r.Translated? ==> r.requestId == requestId && Tight(r.translatedText)
    ensures r.Translated? <==> IsOk(r.Status())
  {
    var source := SourceLang(body);
    if !Valid(body) then
      MissingFields(Received(Truthy(body.text), Truthy(body.targetLang), source))
    else if !hasKey then MissingKey
    else
      match upstream
      case ConnectFailed(message) => Unreachable(message)
      case BodyFailed(_) => Unexpected(requestId)
      case Answered(status, raw, parsed) => FromAnswer(body.text.value, source, status, raw, parsed, requestId)
  }

  /** Validation comes first: a falsy `text` or `targetLang` is a 400 that
      reports which members were truthy, whatever the key and the upstream. */
  lemma ValidationFirst(body: Body, hasKey: bool, upstream: Upstream, requestId: string)
    requires !Valid(body)
    ensures var r := Handle(body, hasKey, upstream, requestId);
            && r.Status() == 400
            && r == MissingFields(Received(Truthy(body.text), Truthy(body.targetLang), SourceLang(body)))
            && (body.sourceLang.None? ==> r.received.sourceLang == "auto")
    ensures Outbound(body, hasKey) == None
  {
  }

  /** A valid request without an API key is a 500 configuration error, and no
      upstream call is made. */
  lemma KeyChecked(body: Body, upstream: Upstream, requestId: string)
    requires Valid(body)
    ensures Handle(body, false, upstream, requestId) == MissingKey
    ensures Handle(body, false, upstream, requestId).Status() == 500
    ensures Outbound(body, false) == None
  {
  }

  /** When no call is made, the upstream cannot influence the reply. */
  lemma NoCallNoDependence(body: Body, hasKey: bool, u1: Upstream, u2: Upstream, requestId: string)
    requires Outbound(body, hasKey) == None
    ensures Handle(body, hasKey, u1, requestId) == Handle(body, hasKey, u2, requestId)
  {
  }

  /** A transport failure is a 500 carrying the failure's message. */
  lemma TransportFailure(body: Body, message: string, requestId: string)
    requires Valid(body)
    ensures var r := Handle(body, true, ConnectFailed(message), requestId);
            r.Status() == 500 && r.Error() == Some(UnreachableError) && r == Unreachable(message)
  {
  }

  /** A non-ok upstream status is passed on unchanged; the details are `{}`
      for an empty body, the document itself for JSON, and otherwise a prefix
      of the raw body of at most 500 characters. */
  lemma UpstreamStatusForwarded(body: Body, status: nat, raw: string, parsed: Parsed, requestId: string)
    requires Valid(body) && !IsOk(status)
    ensures var r := Handle(body, true, Answered(status, raw, parsed), requestId);
            && r.UpstreamError?
            && r.Status() == status
            && (raw == "" ==> r.details == EmptyObject)
            && (raw != "" && !parsed.Malformed? ==> r.details == Forwarded(raw))
            && (raw != "" && parsed.Malformed? ==>
                  r.details.Wrapped? && |r.details.excerpt| <= ExcerptLength && r.details.excerpt <= raw
                  && (|raw| <= ExcerptLength ==> r.details.excerpt == raw)
                  && (|raw| > ExcerptLength ==> r.details.excerpt == raw[..ExcerptLength]))
  {
  }

  /** A failure while the upstream body is read escapes the inner `try`: the
      outer handler answers 500 with the unexpected-error text and the request id. */
  lemma BodyReadFailure(body: Body, message: string, requestId: string)
    requires Valid(body)
    ensures var r := Handle(body, true, BodyFailed(message), requestId);
            && r.Status() == 500 && r.Error() == Some(UnexpectedError)
            && r == Unexpected(requestId)
  {
  }

  /** An ok upstream body that is the JSON literal `null` makes reading
      `data.candidates` throw: the outer handler answers 500 with the
      unexpected-error text and the request id. */
  lemma OkNullDocumentUnexpected(body: Body, status: nat, raw: string, requestId: string)
    requires Valid(body) && IsOk(status) && raw != ""
    ensures var r := Handle(body, true, Answered(status, raw, NullDocument), requestId);
            && r == Unexpected(requestId)
            && r.Status() == 500 && r.Error() == Some(UnexpectedError)
  {
  }

  /** An ok upstream answer that is not JSON is a 500 carrying the parser's message. */
  lemma OkButUnparsable(body: Body, status: nat, raw: string, message: string, requestId: string)
    requires Valid(body) && IsOk(status) && raw != ""
    ensures var r := Handle(body, true, Answered(status, raw, Malformed(message)), requestId);
            r == Unparsable(message) && r.Status() == 500
  {
  }

  /** A successful reply carries the trimmed first candidate text when it is
      present and non-empty, and the trimmed request text otherwise; the
      detected source echoes the request's source, or reads `auto-detected`. */
  lemma SuccessShape(body: Body, status: nat, raw: string, doc: Generated, requestId: string)
    requires Valid(body) && IsOk(status) && raw != ""
    ensures var r := Handle(body, true, Answered(status, raw, Document(doc)), requestId);
            var c := FirstCandidateText(doc);
            && r.Translated? && r.Status() == 200 && r.requestId == requestId
            && (c.Some? && c.value != "" ==> r.translatedText == Trim(c.value))
            && (c.None? || c.value == "" ==> r.translatedText == Trim(body.text.value))
            && (SourceLang(body) == "auto" ==> r.detectedSourceLanguage == "auto-detected")
            && (SourceLang(body) != "auto" ==> r.detectedSourceLanguage == SourceLang(body))
  {
    var source := SourceLang(body);
    assert Handle(body, true, Answered(status, raw, Document(doc)), requestId)
        == FromAnswer(body.text.value, source, status, raw, Document(doc), requestId);
  }

  /** An ok answer with an empty body reads as `{}`: the reply falls back to
      the trimmed request text. */
  lemma EmptyOkBodyFallsBack(body: Body, status: nat, parsed: Parsed, requestId: string)
    requires Valid(body) && IsOk(status)
    ensures var r := Handle(body, true, Answered(status, "", parsed), requestId);
            && r.Translated? && r.Status() == 200 && r.requestId == requestId
            && r.translatedText == Trim(body.text.value)
            && r.detectedSourceLanguage == (if SourceLang(body) == "auto" then "auto-detected" else SourceLang(body))
  {
    var source := SourceLang(body);
    assert Handle(body, true, Answered(status, "", parsed), requestId)
        == FromAnswer(body.text.value, source, status, "", parsed, requestId);
    assert Extracted(Generated(None), body.text.value) == body.text.value;
  }

  /** The worked example: a reply whose first candidate's first part is
      `" Hola "` is answered with `Hola`. */
  lemma HolaExample(requestId: string)
    ensures var body := Body(Some("Hello"), Some("es"), None);
            var doc := Generated(Some([Candidate(Some(Content(Some([Part(Some(" Hola "))]))))]));
            var r := Handle(body, true, Answered(200, "{...}", Document(doc)), requestId);
            r == Translated("Hola", "auto-detected", requestId)
  {
    var doc := Generated(Some([Candidate(Some(Content(Some([Part(Some(" Hola "))]))))]));
    assert FirstCandidateText(doc) == Some(" Hola ");
    TrimHola();
  }

  /** Trimming strips the spaces around a word. */
  lemma TrimHola()
    ensures Trim(" Hola ") == "Hola"
  {
    var s := " Hola ";
    assert SkipLeading(s, 1) == 1 by { assert !IsWhitespace(s[1]); }
    assert SkipLeading(s, 0) == 1;
    assert SkipTrailing(s, 1, 5) == 5 by { assert !IsWhitespace(s[4]); }
    assert SkipTrailing(s, 1, 6) == 5;
    assert s[1..5] == "Hola";
  }
}
